=== FILE: README.md ===
# PlotLines book graph: the decision logic, in Dafny

PlotLines takes an ISBN, looks the book up in the Open Library catalog, picks a
handful of subject tags ("themes") for it, searches the catalog for other books
under each tag, and draws a graph joining the book to its themes and the themes
to related books. This project models the decision logic of `book_graph.py`:
which tags are kept, how a search query is formed and how its results become
"title by author" labels, and how the graph is assembled. Each HTTP request is
replaced by a lookup function from URL to the decoded response. The catalog's
answers are therefore inputs, and every operation is a pure function.

Modules, one per concern of the source file:

- `Results` (`results.dfy`): `Option` for absent keys and failed requests.
  `Result` stands for a value or the exception the Python code would raise.
- `Text` (`text.dfy`): `str.lower()` and the substring test `a in b`. The
  case-insensitive keyword test works position by position. It is proved to
  equal `keyword.lower() in tag.lower()`.
- `Tags` (`tags.dfy`): `is_useful_tag` and `get_book_data_from_isbn`. That is
  the useful-subject filter, the country-subject append, the slice to six, and
  the edition and work lookups with their failure branches.
- `Search` (`search.dfy`): `find_books_by_subject`. That is the escaped query
  URL and the loop that turns `docs` into labels. An empty `author_name` list
  raises `IndexError`.
- `SimilarityGraph` (`graph.dfy`): `build_similarity_graph`. The graph is a map
  from node name to kind (`Book` or `Theme`), where a later `add_node`
  overwrites the kind. The edges are an undirected edge set, stored as a
  symmetric set of pairs. The `seen_books` set is threaded through the
  book loop.

What the code does, as the proofs establish it:

- A tag is useful exactly when it is not one of the five generic tags. The
  comparison is case-sensitive. The keyword branch of `is_useful_tag` never
  changes the answer.
- Before the slice, the tag list is the useful subjects in raw order and with
  raw multiplicity. Then come country subjects not yet present, and those can
  only be generic tags that mention a keyword. None of the five generic tags
  mentions any of the eight fixed keywords. So with the keyword list
  `build_similarity_graph` passes, the append step adds nothing. A country
  subject that is the seventh useful subject, and absent from the first six,
  is cut off by the slice.
- At most six tags are kept, all of them raw subjects. There are none when the
  work has no subjects or a lookup fails.
- Each search query has its spaces replaced by `%20` and contains no space.
  On subjects without `%`, unescaping gives back the subject.
- Decoding yields one label per titled document, in document order. The author
  is "Unknown" when `author_name` is absent. A present but empty `author_name`
  list raises. This holds even for an untitled document, because the author is
  read before the title is checked.
- In the graph, the root and every tag are nodes, and every tag is joined to
  the root. Every edge touches a tag. A related label other than the title
  or a tag is joined only to the first tag whose search returned it, because
  `seen_books` starts as the title and only grows. The exact node set, the node kinds and the edge set
  are characterised. A tag equal to the title turns the root into a theme with
  a self-loop. When no names collide, every edge joins a book to a theme.
- A failed ISBN lookup, or an empty title, gives `(None, "")`. A search that
  raises makes the whole call raise.

Two facts about the code worth keeping in mind:

- The blocklist is the five generic tags, compared exactly and
  case-sensitively. Duplicate subjects are kept, and the cap is six tags.
- A book found under several tags is joined to the first such tag only.

## Model

| member | source | states |
|---|---|---|
| `Text.ToLower` | book_graph.py:10 | lowering keeps the length, maps each ASCII capital to its lower-case letter, and keeps every other character unchanged |
| `Text.ContainsIgnoreCaseIsLoweredSubstring` | book_graph.py:13 | the position-by-position keyword test holds exactly when the lowered keyword occurs as a block in the lowered tag |
| `Tags.MatchesCountry` | book_graph.py:13 | a tag matches exactly when some keyword, lowered, occurs as a block in the lowered tag |
| `Tags.IsUsefulTag` | book_graph.py:8-15 | a tag is useful exactly when it is, case-sensitively, none of the five generic tags; the keyword list plays no part |
| `Tags.UsefulSubjects` | book_graph.py:40 | every useful raw subject is kept with its raw multiplicity, and nothing else is kept |
| `Tags.UsefulSubjectsAppend` | book_graph.py:40 | the filter distributes over concatenation, so kept subjects stay in raw order |
| `Tags.CountrySubjects` | book_graph.py:43 | every raw subject mentioning a keyword, case-insensitively, is kept with its multiplicity, and nothing else |
| `Tags.CountrySubjectsAppend` | book_graph.py:43 | the country comprehension distributes over concatenation, so country subjects stay in raw order |
| `Tags.AppendMissing` | book_graph.py:44-46 | the list keeps its prefix; the appended entries are distinct, come from the extra list, were absent before, and nothing is added when all are present |
| `Tags.AppendMissingAppend` | book_graph.py:44-46 | appending the entries of `a + b` is appending those of `a` and then those of `b`: the loop works front to back |
| `Tags.AppendMissingOne` | book_graph.py:45-46 | a single entry is appended at the end exactly when it is absent, and otherwise the list is unchanged |
| `Tags.CandidatesShape` | book_graph.py:40-46 | before the slice the list starts with the useful subjects; anything after them is a distinct generic raw subject mentioning a keyword |
| `Tags.MentionsNoCountry` | book_graph.py:9 | no generic tag mentions any of the eight country keywords fixed at line 68 |
| `Tags.FixedKeywordsAppendNothing` | book_graph.py:40-48 | with the keyword list of line 68 the append step adds nothing, and the selected tags are a prefix of the useful subjects |
| `Tags.UsefulSubjectsOfUseful` | book_graph.py:40 | when every raw subject is useful, the filter returns the raw list unchanged |
| `Tags.CountryTagCanBeCutOff` | book_graph.py:42-48 | a country subject that is the seventh of seven distinct useful subjects is not among the selected tags, despite the comment at line 42 |
| `Tags.SelectTags` | book_graph.py:39-48 | at most six tags, each a raw subject, none for no subjects, and a prefix of the pre-slice list of length min(6, its length) |
| `Tags.RawSubjects` | book_graph.py:28-39 | subjects come only from a successful fetch of the first work's URL, and are then that work's subject list; no works or a failed fetch gives none |
| `Tags.GetBookData` | book_graph.py:18-48 | a failed ISBN lookup gives no title and no tags; otherwise the title (or "Unknown Title (isbn)") and exactly the tags selected from the first work's subjects: at most six, none when those are missing |
| `Search.EscapeSpaces` | book_graph.py:53 | the escaped subject has no space and is two characters longer per space; a subject without spaces is unchanged |
| `Search.EscapeSpacesRoundTrip` | book_graph.py:53 | on subjects without `%`, unescaping the escaped subject gives the subject back |
| `Search.EscapeSpacesAppend` | book_graph.py:53 | escaping a concatenation concatenates the escaped parts, so characters keep their order |
| `Search.EscapeOneChar` | book_graph.py:53 | a space becomes `%20` and any other character stays as it is |
| `Search.NatToString` | book_graph.py:53 | the limit is written as a non-empty string of decimal digits with no leading zero |
| `Search.NatToStringRoundTrip` | book_graph.py:53 | reading the written limit back gives the number |
| `Search.LimitParameter` | book_graph.py:53 | the `&limit=` parameter has no space, and its digits read back as `max_books` |
| `Search.QueryUrl` | book_graph.py:53 | the query URL contains no space, begins with the search endpoint followed by the escaped subject, and ends with `&limit=` and digits that read back as the limit |
| `Search.Author` | book_graph.py:61 | the author is "Unknown" when `author_name` is absent, and otherwise the first listed name |
| `Search.HasTitle` | book_graph.py:62 | a document counts as titled exactly when its title is present and non-empty |
| `Search.DecodeDocs` | book_graph.py:59-63 | decoding fails exactly when some document has an empty author list; otherwise it yields one label per titled document, each built from a titled document |
| `Search.DecodeDocsAppend` | book_graph.py:59-63 | decoding a concatenation succeeds when both parts do and concatenates their labels, so labels follow document order |
| `Search.DecodeOneDoc` | book_graph.py:60-63 | a single document: an empty author list raises, an untitled one gives nothing, a titled one gives "title by author" with "Unknown" for an absent author |
| `Search.FindBooksBySubject` | book_graph.py:51-64 | a failed request gives an empty list; otherwise the result is the decoding of the response's documents, which raises exactly when one has an empty author list |
| `SimilarityGraph.AddNode` | book_graph.py:74-77 | the node is added or its kind overwritten; other nodes keep their kinds and the edges are unchanged |
| `SimilarityGraph.AddEdge` | book_graph.py:77-78 | the nodes are unchanged and the edge is added in both directions, nothing else |
| `SimilarityGraph.ThemePhase` | book_graph.py:76-78 | each tag becomes a theme node, other nodes keep their kind, and the new edges are exactly root-tag |
| `SimilarityGraph.AddRelatedBooks` | book_graph.py:87-91 | seen grows by the labels; each unseen label becomes a book node joined to the tag; seen labels get no node and no edge |
| `SimilarityGraph.FirstTagIndex` | book_graph.py:83-91 | the position of the earliest tag whose search returned the label |
| `SimilarityGraph.ProducedSpec` | book_graph.py:83-87 | a label is produced exactly when some tag's search returned it |
| `SimilarityGraph.BookPhase` | book_graph.py:80-91 | seen grows by all produced labels; each unseen label becomes a book node and is joined only to the first tag that produced it |
| `SimilarityGraph.AssembleGraph` | book_graph.py:73-91 | the root is a node; each tag is a node joined to the root; edges are undirected, join nodes, and always touch a tag |
| `SimilarityGraph.AssembleGraphExact` | book_graph.py:73-91 | the nodes are the root, the tags and the produced labels, with their final kinds; the edges are exactly root-tag and label-to-first-tag |
| `SimilarityGraph.LinkedToFirstTagOnly` | book_graph.py:87-91 | a related label other than the root or a tag is adjacent to a tag exactly when that is the first tag whose search returned it |
| `SimilarityGraph.BipartiteWithoutCollisions` | book_graph.py:74-90 | when no tag equals the title or a label, every edge joins a book to a theme |
| `SimilarityGraph.SecondTagGetsNoEdge` | book_graph.py:83-91 | a label (not the title or a tag) returned under a tag and again under a later, different tag has no edge to the later tag |
| `SimilarityGraph.TagEqualToTitleOverwritesRoot` | book_graph.py:74-78 | whenever a tag equals the title, the root node ends as a theme and is joined to itself |
| `SimilarityGraph.BuildSimilarityGraph` | book_graph.py:67-93 | no graph exactly when the ISBN lookup fails or the title is empty (an absent title gets the default and still gives a graph); it raises exactly when some tag's search raises; otherwise the graph is the assembled graph over the title, the selected tags and each tag's search labels: it holds the title joined to every tag, and every edge touches a tag |

## Left out

- HTTP requests, status codes and JSON decoding: each request is a lookup
  function from URL to a decoded response. `None` or `HttpError` stands for a
  non-200 status. Transport exceptions from `requests` and malformed JSON are
  not modelled.
- JSON value types: a title is a string when present, and `author_name` is a
  list of strings. An edition title that is present but `null` is not
  represented. An absent title gets the default.
- `print("ISBN not found.")`: console output only.
- `time.sleep(0.5)`: timing only, with no effect on the result.
- `draw_graph`: matplotlib drawing and spring layout.
- networkx internals: only the effect of `add_node` and `add_edge` on node
  kinds and on the edge set is modelled. The implicit creation of endpoints by
  `add_edge` is not represented, because both endpoints are always present at
  the calls in this file.
- `Text.ToLower`: only ASCII letters are lowered. Python's `str.lower()` also
  lowers other letters, so keyword matches that depend on non-ASCII case are
  not modelled.
- `Search.QueryUrl`: `max_books` is a natural number. A negative argument,
  which the code never passes, is not formatted.
- `Search.FindBooksBySubject`: the `limit` parameter is only sent to the
  server, and the code does not cut the `docs` list itself. So the model puts
  no bound on the number of labels.

=== FILE: graph.dfy ===
/** `build_similarity_graph` in book_graph.py: a book/theme graph built from
    the selected tags of one book and the search results for each tag. The
    graph mirrors only what `networkx.Graph` does on `add_node` and
    `add_edge`. */
module SimilarityGraph {
  import opened Results
  import opened Tags
  import opened Search

  /** The `type` attribute of a node. */
  datatype Kind = Book | Theme

  /** An undirected graph: each node carries its kind, and each edge is
      stored in both orientations, so adding `(u, v)` or `(v, u)` is the same
      and adding an edge twice changes nothing. A self-loop is the single
      pair `(u, u)`. */
  datatype Graph = Graph(nodes: map<string, Kind>, edges: set<(string, string)>)

  const EmptyGraph: Graph := Graph(map[], {})

  predicate Adjacent(g: Graph, u: string, v: string) {
    (u, v) in g.edges
  }

  /** `G.add_node(n, type=k)`: adds `n`, or overwrites its kind when present. */
  function AddNode(g: Graph, n: string, k: Kind): (r: Graph)
    ensures r.nodes.Keys == g.nodes.Keys + {n} && r.nodes[n] == k
    ensures forall m :: m in g.nodes && m != n ==> r.nodes[m] == g.nodes[m]
    ensures r.edges == g.edges
  {
    g.(nodes := g.nodes[n := k])
  }

  /** `G.add_edge(u, v)`. networkx would also create missing endpoints; at
      every call in this model both endpoints are already nodes
      (`AssembleGraph` proves it), so that case is not represented. */
  function AddEdge(g: Graph, u: string, v: string): (r: Graph)
    ensures r.nodes == g.nodes
    ensures forall x, y :: (x, y) in r.edges <==> (x, y) in g.edges || (x == u && y == v) || (x == v && y == u)
  {
    g.(edges := g.edges + {(u, v), (v, u)})
  }

  function Elems(s: seq<string>): set<string> {
    set x | x in s
  }

  /** The first loop: each tag becomes a theme node joined to the root. */
  function ThemePhase(g: Graph, root: string, tags: seq<string>): (r: Graph)
    ensures r.nodes.Keys == g.nodes.Keys + Elems(tags)
    ensures forall t :: t in tags ==> r.nodes[t] == Theme
    ensures forall n :: n in g.nodes && n !in tags ==> r.nodes[n] == g.nodes[n]
    ensures forall u, v :: (u, v) in r.edges <==>
      (u, v) in g.edges || (u == root && v in tags) || (v == root && u in tags)
    decreases |tags|
  {
    if tags == [] then g
    else ThemePhase(AddEdge(AddNode(g, tags[0], Theme), root, tags[0]), root, tags[1..])
  }

  /** The inner loop for one tag: each label not yet seen becomes a book node
      joined to that tag and is marked seen; a label already seen is skipped. */
  function AddRelatedBooks(g: Graph, seen: set<string>, tag: string, books: seq<string>)
    : (r: (Graph, set<string>))
    ensures r.1 == seen + Elems(books)
    ensures r.0.nodes.Keys == g.nodes.Keys + (Elems(books) - seen)
    ensures forall b :: b in books && b !in seen ==> r.0.nodes[b] == Book
    ensures forall n :: n in g.nodes && (n !in books || n in seen) ==> r.0.nodes[n] == g.nodes[n]
    ensures forall u, v :: (u, v) in r.0.edges <==>
      || (u, v) in g.edges
      || (u in books && u !in seen && v == tag)
      || (v in books && v !in seen && u == tag)
    decreases |books|
  {
    if books == [] then (g, seen)
    else if books[0] in seen then AddRelatedBooks(g, seen, tag, books[1..])
    else
      var g' := AddEdge(AddNode(g, books[0], Book), books[0], tag);
      AddRelatedBooks(g', seen + {books[0]}, tag, books[1..])
  }

  /** Every label some tag's search produced. */
  function Produced(tags: seq<string>, related: string -> seq<string>): set<string>
    decreases |tags|
  {
    if tags == [] then {} else Elems(related(tags[0])) + Produced(tags[1..], related)
  }

  lemma {:induction false} ProducedSpec(tags: seq<string>, related: string -> seq<string>)
    ensures forall b :: b in Produced(tags, related) <==> exists i :: 0 <= i < |tags| && b in related(tags[i])
    decreases |tags|
  {
    if tags != [] {
      ProducedSpec(tags[1..], related);
      forall b | b in Produced(tags[1..], related)
        ensures exists i :: 1 <= i < |tags| && b in related(tags[i])
      {
        var j :| 0 <= j < |tags[1..]| && b in related(tags[1..][j]);
        assert b in related(tags[j + 1]);
      }
      forall b | exists i :: 1 <= i < |tags| && b in related(tags[i])
        ensures b in Produced(tags[1..], related)
      {
        var i :| 1 <= i < |tags| && b in related(tags[i]);
        assert b in related(tags[1..][i - 1]);
      }
    }
  }

  /** The position of the first tag whose search produced `b`. */
  function FirstTagIndex(b: string, tags: seq<string>, related: string -> seq<string>): (k: nat)
    requires b in Produced(tags, related)
    ensures k < |tags| && b in related(tags[k])
    ensures forall j :: 0 <= j < k ==> b !in related(tags[j])
    decreases |tags|
  {
    if b in related(tags[0]) then 0
    else
      var k := FirstTagIndex(b, tags[1..], related);
      assert forall j :: 1 <= j <= k ==> tags[j] == tags[1..][j - 1];
      1 + k
  }

  /** `b` was first produced by tag `t` and was not seen before the loop. */
  predicate LinkedFirst(b: string, t: string, seen: set<string>, tags: seq<string>,
                        related: string -> seq<string>)
  {
    b in Produced(tags, related) && b !in seen && t == tags[FirstTagIndex(b, tags, related)]
  }

  /** Peeling the first tag off `LinkedFirst`. */
  lemma LinkedFirstCons(b: string, t: string, seen: set<string>, tags: seq<string>,
                        related: string -> seq<string>)
    requires tags != []
    ensures LinkedFirst(b, t, seen, tags, related) <==>
      || (b in related(tags[0]) && b !in seen && t == tags[0])
      || LinkedFirst(b, t, seen + Elems(related(tags[0])), tags[1..], related)
  {
    if b in Produced(tags, related) && b !in related(tags[0]) {
      var k := FirstTagIndex(b, tags[1..], related);
      assert FirstTagIndex(b, tags, related) == 1 + k;
      assert tags[1 + k] == tags[1..][k];
    }
  }

  /** The outer loop over the tags, threading `seen_books` through: a label
      is joined to the first tag that produced it and to no other. */
  function BookPhase(g: Graph, seen: set<string>, tags: seq<string>, related: string -> seq<string>)
    : (r: (Graph, set<string>))
    ensures r.1 == seen + Produced(tags, related)
    ensures r.0.nodes.Keys == g.nodes.Keys + (Produced(tags, related) - seen)
    ensures forall b :: b in Produced(tags, related) && b !in seen ==> r.0.nodes[b] == Book
    ensures forall n :: n in g.nodes && (n !in Produced(tags, related) || n in seen) ==>
      r.0.nodes[n] == g.nodes[n]
    ensures forall u, v :: (u, v) in r.0.edges <==>
      || (u, v) in g.edges
      || LinkedFirst(u, v, seen, tags, related)
      || LinkedFirst(v, u, seen, tags, related)
    decreases |tags|
  {
    if tags == [] then (g, seen)
    else
      var step := AddRelatedBooks(g, seen, tags[0], related(tags[0]));
      assert forall u, v :: LinkedFirst(u, v, seen, tags, related) <==>
        || (u in related(tags[0]) && u !in seen && v == tags[0])
        || LinkedFirst(u, v, step.1, tags[1..], related)
      by {
        forall u, v { LinkedFirstCons(u, v, seen, tags, related); }
      }
      BookPhase(step.0, step.1, tags[1..], related)
  }

  /** Lines 73-91 of `build_similarity_graph`, with the search for each tag
      given by `related`. */
  function AssembleGraph(root: string, tags: seq<string>, related: string -> seq<string>): (g: Graph)
    ensures root in g.nodes
    ensures forall t :: t in tags ==> t in g.nodes && Adjacent(g, root, t)
    ensures forall u, v :: Adjacent(g, u, v) ==> Adjacent(g, v, u)
    ensures forall u, v :: Adjacent(g, u, v) ==> u in g.nodes && v in g.nodes
    ensures forall u, v :: Adjacent(g, u, v) ==> u in tags || v in tags
  {
    var themed := ThemePhase(AddNode(EmptyGraph, root, Book), root, tags);
    BookPhase(themed, {root}, tags, related).0
  }

  /** The whole graph, node by node and edge by edge: the root, the tags and
      every produced label are the nodes; a produced label other than the
      root is a book (even when it equals a tag, because the book loop runs
      last); a tag is a theme otherwise, and so is the root when it equals a
      tag. The edges are root-tag and label-first tag. */
  lemma AssembleGraphExact(root: string, tags: seq<string>, related: string -> seq<string>)
    ensures var g, p := AssembleGraph(root, tags, related), Produced(tags, related);
      && g.nodes.Keys == {root} + Elems(tags) + p
      && (forall b :: b in p && b != root ==> g.nodes[b] == Book)
      && (forall t :: t in tags && (t !in p || t == root) ==> g.nodes[t] == Theme)
      && (root !in tags ==> g.nodes[root] == Book)
      && (forall u, v :: Adjacent(g, u, v) <==>
            || (u == root && v in tags)
            || (v == root && u in tags)
            || LinkedFirst(u, v, {root}, tags, related)
            || LinkedFirst(v, u, {root}, tags, related))
  {
  }

  /** A related label that is neither the root nor a tag is joined to exactly
      one tag: the first one whose search returned it. */
  lemma {:induction false} LinkedToFirstTagOnly(root: string, tags: seq<string>,
                                                related: string -> seq<string>, b: string, t: string)
    requires b in Produced(tags, related) && b != root && b !in tags
    ensures Adjacent(AssembleGraph(root, tags, related), b, t) <==>
      t == tags[FirstTagIndex(b, tags, related)]
  {
    AssembleGraphExact(root, tags, related);
  }

  /** When no tag equals the title or a related label, every edge joins a
      book to a theme. */
  lemma {:induction false} BipartiteWithoutCollisions(root: string, tags: seq<string>,
                                                      related: string -> seq<string>)
    requires root !in tags
    requires forall t :: t in tags ==> t !in Produced(tags, related)
    ensures var g := AssembleGraph(root, tags, related);
      forall u, v :: Adjacent(g, u, v) ==> g.nodes[u] != g.nodes[v]
  {
    AssembleGraphExact(root, tags, related);
    var g := AssembleGraph(root, tags, related);
    forall u, v | Adjacent(g, u, v)
      ensures g.nodes[u] != g.nodes[v]
    {
      if LinkedFirst(u, v, {root}, tags, related) {
        assert tags[FirstTagIndex(u, tags, related)] in tags;
      } else if LinkedFirst(v, u, {root}, tags, related) {
        assert tags[FirstTagIndex(v, tags, related)] in tags;
      }
    }
  }

  /** A label returned under a tag and again under a later, different tag
      gets no edge to the later tag: `seen_books` already holds it. */
  lemma SecondTagGetsNoEdge(root: string, tags: seq<string>, related: string -> seq<string>,
                            b: string, i: nat, j: nat)
    requires i < j < |tags|
    requires b in related(tags[i]) && b in related(tags[j])
    requires b != root && b !in tags
    requires tags[j] !in tags[..j]
    ensures !Adjacent(AssembleGraph(root, tags, related), b, tags[j])
  {
    ProducedSpec(tags, related);
    var k := FirstTagIndex(b, tags, related);
    assert k <= i;
    assert tags[k] in tags[..j];
    LinkedToFirstTagOnly(root, tags, related, b, tags[j]);
  }

  /** A tag equal to the title overwrites the root's kind and joins the root
      to itself. */
  lemma TagEqualToTitleOverwritesRoot(root: string, tags: seq<string>, related: string -> seq<string>)
    requires root in tags
    ensures AssembleGraph(root, tags, related).nodes[root] == Theme
    ensures Adjacent(AssembleGraph(root, tags, related), root, root)
  {
    AssembleGraphExact(root, tags, related);
  }

  /** What `build_similarity_graph` returns: `(None, "")`, a graph with its
      centre title, or the exception a search raised. */
  datatype BuildResult = NoGraph | Built(graph: Graph, center: string) | Raised(error: SearchError)

  /** The labels `find_books_by_subject(tag)` returns, for a search that
      does not raise. */
  function RelatedBooks(searchAt: string -> SearchResponse): string -> seq<string> {
    (tag: string) =>
      match FindBooksBySubject(tag, MaxBooks, searchAt)
      case Success(labels) => labels
      case Failure(_) => []
  }

  predicate SomeSearchRaises(tags: seq<string>, searchAt: string -> SearchResponse) {
    exists t :: t in tags && FindBooksBySubject(t, MaxBooks, searchAt).Failure?
  }

  /** `build_similarity_graph(isbn)`, with the three kinds of HTTP request
      given as lookups from URL to decoded response. */
  function BuildSimilarityGraph(isbn: string, editionAt: string -> Option<Edition>,
                                workAt: string -> Option<Work>,
                                searchAt: string -> SearchResponse): (r: BuildResult)
    ensures editionAt(IsbnUrl(isbn)).None? ==> r == NoGraph
    ensures var data := GetBookData(isbn, editionAt, workAt, CountryKeywords);
      && (r.NoGraph? <==> data.0.None? || data.0.value == "")
      && (r.Raised? <==> data.0.Some? && data.0.value != "" && SomeSearchRaises(data.1, searchAt))
      && (r.Built? ==>
            && r.center == data.0.value
            && r.center in r.graph.nodes
            && (forall t :: t in data.1 ==> Adjacent(r.graph, r.center, t))
            && (forall u, v :: Adjacent(r.graph, u, v) ==> u in data.1 || v in data.1)
            && r.graph == AssembleGraph(r.center, data.1, RelatedBooks(searchAt)))
  {
    var data := GetBookData(isbn, editionAt, workAt, CountryKeywords);
    if data.0.None? || data.0.value == "" then NoGraph
    else if SomeSearchRaises(data.1, searchAt) then Raised(AuthorIndexError)
    else Built(AssembleGraph(data.0.value, data.1, RelatedBooks(searchAt)), data.0.value)
  }
}

=== FILE: results.dfy ===
/** Optional values and failure-carrying results, standing in for Python's
    `None` and for exceptions that escape a call. */
module Results {

  /** A value that may be absent: a missing dictionary key, a JSON `null`,
      or a non-200 HTTP response. */
  datatype Option<+T> = None | Some(value: T) {
    function GetOr(default: T): T {
      match this
      case Some(v) => v
      case None => default
    }
  }

  /** Either a value or the error that the Python code would raise. */
  datatype Result<+R, +E> = Success(value: R) | Failure(error: E)
}

=== FILE: search.dfy ===
/** `find_books_by_subject` in book_graph.py: the search query it builds and
    the way it turns the returned documents into "title by author" labels.
    The HTTP request is a lookup function from URL to decoded response. */
module Search {
  import opened Results

  /** The search endpoint up to the subject parameter,
      "https://openlibrary.org/search.json?subject=". It is written as short
      pieces so that the verifier can check it holds no space piece by piece. */
  const SearchEndpoint: string := "https://" + "openlibrary.org" + "/search.json" + "?subject="

  /** The default `max_books`. */
  const MaxBooks: nat := 3

  /** `subject.replace(' ', '%20')`. */
  function EscapeSpaces(s: string): (r: string)
    ensures ' ' !in r
    ensures |r| == |s| + 2 * multiset(s)[' ']
    ensures ' ' !in s ==> r == s
    decreases |s|
  {
    if s == [] then []
    else
      assert s == [s[0]] + s[1..];
      (if s[0] == ' ' then "%20" else [s[0]]) + EscapeSpaces(s[1..])
  }

  /** Escaping works character by character: escaping a concatenation
      concatenates the escaped parts, so every character other than a space
      is kept in place and order. */
  lemma {:induction false} EscapeSpacesAppend(a: string, b: string)
    ensures EscapeSpaces(a + b) == EscapeSpaces(a) + EscapeSpaces(b)
    decreases |a|
  {
    if a == [] {
      assert a + b == b;
    } else {
      assert (a + b)[0] == a[0];
      assert (a + b)[1..] == a[1..] + b;
      EscapeSpacesAppend(a[1..], b);
    }
  }

  /** One character: a space becomes `%20`, anything else stays. */
  lemma EscapeOneChar(c: char)
    ensures c == ' ' ==> EscapeSpaces([c]) == "%20"
    ensures c != ' ' ==> EscapeSpaces([c]) == [c]
  {
    assert [c][1..] == [];
  }

  /** Replaces each `%20`, scanning left to right, by a space. */
  function UnescapeSpaces(s: string): string
    decreases |s|
  {
    if s == [] then []
    else if |s| >= 3 && s[..3] == "%20" then " " + UnescapeSpaces(s[3..])
    else [s[0]] + UnescapeSpaces(s[1..])
  }

  lemma UnescapeSpacesEncoded(rest: string)
    ensures UnescapeSpaces("%20" + rest) == " " + UnescapeSpaces(rest)
  {
    var e := "%20" + rest;
    assert e[..3] == "%20" && e[3..] == rest;
  }

  lemma UnescapeSpacesOther(c: char, rest: string)
    requires c != '%'
    ensures UnescapeSpaces([c] + rest) == [c] + UnescapeSpaces(rest)
  {
    var e := [c] + rest;
    assert e[0] == c && e[1..] == rest;
  }

  /** Escaping loses nothing on subjects without a `%`: every other
      character is kept, in order. */
  lemma {:induction false} EscapeSpacesRoundTrip(s: string)
    requires '%' !in s
    ensures UnescapeSpaces(EscapeSpaces(s)) == s
    decreases |s|
  {
    if s != [] {
      var rest := EscapeSpaces(s[1..]);
      EscapeSpacesRoundTrip(s[1..]);
      if s[0] == ' ' {
        assert EscapeSpaces(s) == "%20" + rest;
        UnescapeSpacesEncoded(rest);
      } else {
        assert EscapeSpaces(s) == [s[0]] + rest;
        UnescapeSpacesOther(s[0], rest);
      }
      assert s == [s[0]] + s[1..];
    }
  }

  function DigitChar(d: nat): (c: char)
    requires d < 10
    ensures '0' <= c <= '9' && c as int - '0' as int == d
  {
    "0123456789"[d]
  }

  /** `str(n)` for a non-negative integer. */
  function NatToString(n: nat): (r: string)
    ensures |r| >= 1
    ensures forall i :: 0 <= i < |r| ==> '0' <= r[i] <= '9'
    ensures |r| > 1 ==> r[0] != '0'
    decreases n
  {
    if n < 10 then [DigitChar(n)] else NatToString(n / 10) + [DigitChar(n % 10)]
  }

  /** Reads a string of decimal digits back as a number. */
  function ParseNat(s: string): nat
    requires forall i :: 0 <= i < |s| ==> '0' <= s[i] <= '9'
    decreases |s|
  {
    if s == [] then 0 else 10 * ParseNat(s[..|s| - 1]) + (s[|s| - 1] as int - '0' as int)
  }

  lemma {:induction false} NatToStringRoundTrip(n: nat)
    ensures ParseNat(NatToString(n)) == n
    decreases n
  {
    if n < 10 {
      assert NatToString(n)[..0] == [];
    } else {
      NatToStringRoundTrip(n / 10);
      var r, front := NatToString(n), NatToString(n / 10);
      assert r == front + [DigitChar(n % 10)];
      assert r[..|r| - 1] == front;
      assert r[|r| - 1] as int - '0' as int == n % 10;
    }
  }

  /** The `&limit=` parameter: no space, then digits that read back as `n`. */
  lemma LimitParameter(n: nat)
    ensures var tail := "&limit=" + NatToString(n);
      && ' ' !in tail && |tail| > 7 && tail[..7] == "&limit="
      && (forall i :: 7 <= i < |tail| ==> '0' <= tail[i] <= '9')
      && ParseNat(tail[7..]) == n
  {
    var limit := NatToString(n);
    NatToStringRoundTrip(n);
    assert ' ' !in "&limit=";
    assert ("&limit=" + limit)[7..] == limit;
    assert forall i :: 0 <= i < |limit| ==> limit[i] != ' ';
  }

  /** The search URL for one subject. It contains no space, and the escaped
      subject sits right after the endpoint. */
  function QueryUrl(subject: string, maxBooks: nat): (r: string)
    ensures ' ' !in r
    ensures SearchEndpoint + EscapeSpaces(subject) <= r
    ensures var tail := r[|SearchEndpoint| + |EscapeSpaces(subject)|..];
      && |tail| > 7 && tail[..7] == "&limit="
      && (forall i :: 7 <= i < |tail| ==> '0' <= tail[i] <= '9')
      && ParseNat(tail[7..]) == maxBooks
  {
    var head, tail := SearchEndpoint + EscapeSpaces(subject), "&limit=" + NatToString(maxBooks);
    LimitParameter(maxBooks);
    assert ' ' !in SearchEndpoint;
    assert ' ' !in head;
    assert (head + tail)[|head|..] == tail;
    head + tail
  }

  /** One entry of the response's `docs` list. A title is kept as `None` when
      absent; `author_name` is `None` when absent. */
  datatype Doc = Doc(title: Option<string>, authorNames: Option<seq<string>>)

  /** The exception `doc.get("author_name", ["Unknown"])[0]` raises on a
      present but empty author list. */
  datatype SearchError = AuthorIndexError

  /** A search response: a non-200 status, or the decoded `docs` list (an
      absent `docs` key is the empty list). */
  datatype SearchResponse = HttpError | Docs(docs: seq<Doc>)

  /** `if title:` — Python treats an absent title and the empty string as
      false, and any other string as true. */
  function HasTitle(d: Doc): (r: bool)
    ensures r <==> d.title.Some? && |d.title.value| > 0
  {
    d.title.Some? && d.title.value != ""
  }

  predicate RaisesIndexError(d: Doc) {
    d.authorNames == Some([])
  }

  /** `doc.get("author_name", ["Unknown"])[0]`, when it does not raise. */
  function Author(d: Doc): (r: string)
    requires !RaisesIndexError(d)
    ensures d.authorNames.None? ==> r == "Unknown"
    ensures d.authorNames.Some? ==> |d.authorNames.value| > 0 && r == d.authorNames.value[0]
  {
    match d.authorNames
    case None => "Unknown"
    case Some(names) => names[0]
  }

  function Label(title: string, author: string): string {
    title + " by " + author
  }

  /** The number of documents with a title. */
  function TitledCount(docs: seq<Doc>): nat
    decreases |docs|
  {
    if docs == [] then 0 else (if HasTitle(docs[0]) then 1 else 0) + TitledCount(docs[1..])
  }

  /** The loop over `docs`. The author is looked up before the title is
      tested, so any document with an empty author list raises, titled or
      not; otherwise each titled document yields one label. */
  function DecodeDocs(docs: seq<Doc>): (r: Result<seq<string>, SearchError>)
    ensures r.Failure? <==> exists i :: 0 <= i < |docs| && RaisesIndexError(docs[i])
    ensures r.Success? ==> |r.value| == TitledCount(docs)
    ensures r.Success? ==> forall l :: l in r.value ==>
      exists i :: 0 <= i < |docs| && HasTitle(docs[i]) && !RaisesIndexError(docs[i]) &&
                  l == Label(docs[i].title.value, Author(docs[i]))
    decreases |docs|
  {
    if docs == [] then Success([])
    else
      var d := docs[0];
      if RaisesIndexError(d) then Failure(AuthorIndexError)
      else match DecodeDocs(docs[1..])
        case Failure(e) => Failure(e)
        case Success(rest) =>
          Success((if HasTitle(d) then [Label(d.title.value, Author(d))] else []) + rest)
  }

  /** Decoding keeps document order: decoding a concatenation concatenates
      the labels, and fails when either part fails. */
  lemma {:induction false} DecodeDocsAppend(a: seq<Doc>, b: seq<Doc>)
    ensures DecodeDocs(a + b).Success? <==> DecodeDocs(a).Success? && DecodeDocs(b).Success?
    ensures DecodeDocs(a + b).Success? ==>
      DecodeDocs(a + b).value == DecodeDocs(a).value + DecodeDocs(b).value
    decreases |a|
  {
    if a == [] {
      assert a + b == b;
    } else {
      assert (a + b)[0] == a[0];
      assert (a + b)[1..] == a[1..] + b;
      DecodeDocsAppend(a[1..], b);
    }
  }

  /** One document on its own: an empty author list raises, a titled one gives
      one label whose author is "Unknown" when `author_name` is absent, an
      untitled one gives nothing. */
  lemma DecodeOneDoc(d: Doc)
    ensures RaisesIndexError(d) ==> DecodeDocs([d]).Failure?
    ensures !RaisesIndexError(d) && !HasTitle(d) ==> DecodeDocs([d]) == Success([])
    ensures d.authorNames.None? && HasTitle(d) ==>
      DecodeDocs([d]) == Success([d.title.value + " by Unknown"])
    ensures d.authorNames.Some? && |d.authorNames.value| > 0 && HasTitle(d) ==>
      DecodeDocs([d]) == Success([d.title.value + " by " + d.authorNames.value[0]])
  {
    assert [d][1..] == [];
    assert DecodeDocs([d][1..]) == Success([]);
    if !RaisesIndexError(d) && HasTitle(d) {
      var l := Label(d.title.value, Author(d));
      assert [l] + [] == [l];
      assert DecodeDocs([d]) == Success([l]);
      assert d.title.value + " by " + "Unknown" == d.title.value + " by Unknown";
    }
  }

  /** `find_books_by_subject(subject, max_books)`: a failed request is an
      empty list, not an error. */
  function FindBooksBySubject(subject: string, maxBooks: nat,
                              searchAt: string -> SearchResponse)
    : (r: Result<seq<string>, SearchError>)
    ensures searchAt(QueryUrl(subject, maxBooks)).HttpError? ==> r == Success([])
    ensures r.Failure? <==>
      && searchAt(QueryUrl(subject, maxBooks)).Docs?
      && exists d :: d in searchAt(QueryUrl(subject, maxBooks)).docs && RaisesIndexError(d)
    ensures searchAt(QueryUrl(subject, maxBooks)).Docs? ==>
      r == DecodeDocs(searchAt(QueryUrl(subject, maxBooks)).docs)
  {
    match searchAt(QueryUrl(subject, maxBooks))
    case HttpError => Success([])
    case Docs(docs) => DecodeDocs(docs)
  }
}

=== FILE: tags.dfy ===
/** Tag usefulness and tag selection: `is_useful_tag` and
    `get_book_data_from_isbn` in book_graph.py, with the two HTTP fetches
    replaced by lookup functions from URL to decoded response. */
module Tags {
  import opened Results
  import opened Text

  /** The subjects `is_useful_tag` rejects, compared case-sensitively. */
  const GeneralTags: set<string> :=
    {"Fiction", "Literary fiction", "Accessible book", "Protected DAISY", "In library"}

  /** The keyword list `build_similarity_graph` passes down. */
  const CountryKeywords: seq<string> :=
    ["Japan", "Canada", "United States", "England", "France", "Germany", "China", "India"]

  /** The slice bound on the selected tag list. */
  const MaxTags: nat := 6

  /** `any(c.lower() in tag.lower() for c in keywords)`. */
  function MatchesCountry(tag: string, keywords: seq<string>): (r: bool)
    ensures r <==> exists c :: c in keywords && IsSubstring(ToLower(c), ToLower(tag))
  {
    assert forall c :: ContainsIgnoreCase(tag, c) <==> IsSubstring(ToLower(c), ToLower(tag)) by {
      forall c { ContainsIgnoreCaseIsLoweredSubstring(tag, c); }
    }
    exists c :: c in keywords && ContainsIgnoreCase(tag, c)
  }

  /** `is_useful_tag`, with its three branches kept. The keyword branch can
      only answer what the last line would answer anyway, so the result
      depends on the tag alone. */
  function IsUsefulTag(tag: string, countryKeywords: seq<string>): (useful: bool)
    ensures useful <==>
      && tag != "Fiction"
      && tag != "Literary fiction"
      && tag != "Accessible book"
      && tag != "Protected DAISY"
      && tag != "In library"
  {
    if tag in GeneralTags then false
    else if MatchesCountry(tag, countryKeywords) then true
    else tag !in GeneralTags
  }

  /** The comprehension that keeps the useful raw subjects. */
  function UsefulSubjects(raw: seq<string>, keywords: seq<string>): (r: seq<string>)
    ensures forall t :: multiset(r)[t] == if IsUsefulTag(t, keywords) then multiset(raw)[t] else 0
    ensures forall t :: t in r <==> t in raw && IsUsefulTag(t, keywords)
    decreases |raw|
  {
    if raw == [] then []
    else
      assert raw == [raw[0]] + raw[1..];
      (if IsUsefulTag(raw[0], keywords) then [raw[0]] else []) + UsefulSubjects(raw[1..], keywords)
  }

  /** The comprehension that collects the raw subjects mentioning a keyword. */
  function CountrySubjects(raw: seq<string>, keywords: seq<string>): (r: seq<string>)
    ensures forall t :: multiset(r)[t] == if MatchesCountry(t, keywords) then multiset(raw)[t] else 0
    ensures forall t :: t in r <==> t in raw && MatchesCountry(t, keywords)
    decreases |raw|
  {
    if raw == [] then []
    else
      assert raw == [raw[0]] + raw[1..];
      (if MatchesCountry(raw[0], keywords) then [raw[0]] else []) + CountrySubjects(raw[1..], keywords)
  }

  /** The loop that appends each entry of `extra` not yet in the list; the
      membership test sees the entries appended so far. */
  function AppendMissing(acc: seq<string>, extra: seq<string>): (r: seq<string>)
    ensures |acc| <= |r| && r[..|acc|] == acc
    ensures forall t :: t in r <==> t in acc || t in extra
    ensures forall i :: |acc| <= i < |r| ==> r[i] in extra && r[i] !in acc
    ensures forall i, j :: |acc| <= i < j < |r| ==> r[i] != r[j]
    ensures (forall t :: t in extra ==> t in acc) ==> r == acc
    decreases |extra|
  {
    if extra == [] then acc
    else if extra[0] in acc then AppendMissing(acc, extra[1..])
    else AppendMissing(acc + [extra[0]], extra[1..])
  }

  /** The tag list just before the slice to `MaxTags`. */
  function Candidates(raw: seq<string>, keywords: seq<string>): seq<string> {
    AppendMissing(UsefulSubjects(raw, keywords), CountrySubjects(raw, keywords))
  }

  /** Lines 39-48 of `get_book_data_from_isbn` once the work's subjects are
      known. */
  function SelectTags(raw: seq<string>, keywords: seq<string>): (r: seq<string>)
    ensures |r| <= MaxTags
    ensures forall t :: t in r ==> t in raw
    ensures raw == [] ==> r == []
    ensures r <= Candidates(raw, keywords)
    ensures |r| == if |Candidates(raw, keywords)| <= MaxTags then |Candidates(raw, keywords)| else MaxTags
  {
    var c := Candidates(raw, keywords);
    if |c| <= MaxTags then c else c[..MaxTags]
  }

  /** Filtering distributes over concatenation: the useful subjects keep
      their raw order. */
  lemma {:induction false} UsefulSubjectsAppend(a: seq<string>, b: seq<string>, keywords: seq<string>)
    ensures UsefulSubjects(a + b, keywords) == UsefulSubjects(a, keywords) + UsefulSubjects(b, keywords)
    decreases |a|
  {
    if a == [] {
      assert a + b == b;
    } else {
      assert (a + b)[1..] == a[1..] + b;
      UsefulSubjectsAppend(a[1..], b, keywords);
    }
  }

  /** The country comprehension keeps raw order in the same way. */
  lemma {:induction false} CountrySubjectsAppend(a: seq<string>, b: seq<string>, keywords: seq<string>)
    ensures CountrySubjects(a + b, keywords) == CountrySubjects(a, keywords) + CountrySubjects(b, keywords)
    decreases |a|
  {
    if a == [] {
      assert a + b == b;
    } else {
      assert (a + b)[1..] == a[1..] + b;
      CountrySubjectsAppend(a[1..], b, keywords);
    }
  }

  /** The append loop handles `extra` front to back: appending `a + b` is
      appending `a`, then `b`. */
  lemma {:induction false} AppendMissingAppend(acc: seq<string>, a: seq<string>, b: seq<string>)
    ensures AppendMissing(acc, a + b) == AppendMissing(AppendMissing(acc, a), b)
    decreases |a|
  {
    if a == [] {
      assert a + b == b;
    } else {
      assert (a + b)[0] == a[0];
      assert (a + b)[1..] == a[1..] + b;
      if a[0] in acc {
        AppendMissingAppend(acc, a[1..], b);
      } else {
        AppendMissingAppend(acc + [a[0]], a[1..], b);
      }
    }
  }

  /** One entry: it is appended at the end exactly when it is missing. */
  lemma AppendMissingOne(acc: seq<string>, t: string)
    ensures t in acc ==> AppendMissing(acc, [t]) == acc
    ensures t !in acc ==> AppendMissing(acc, [t]) == acc + [t]
  {
    assert [t][1..] == [];
  }

  /** Before the slice, the list is the useful subjects in raw order followed
      by distinct subjects that are generic tags mentioning a keyword. */
  lemma CandidatesShape(raw: seq<string>, keywords: seq<string>)
    ensures var u, c := UsefulSubjects(raw, keywords), Candidates(raw, keywords);
      && c[..|u|] == u
      && (forall i :: |u| <= i < |c| ==>
            c[i] in raw && c[i] in GeneralTags && MatchesCountry(c[i], keywords) && c[i] !in u)
      && (forall i, j :: |u| <= i < j < |c| ==> c[i] != c[j])
  {
  }

  /** No generic tag mentions any of the fixed country keywords. */
  lemma GeneralTagsMentionNoCountry()
    ensures forall g :: g in GeneralTags ==> !MatchesCountry(g, CountryKeywords)
  {
    forall g | g in GeneralTags
      ensures !MatchesCountry(g, CountryKeywords)
    {
      MentionsNoCountry(g);
    }
  }

  /** Each generic tag, checked against each keyword. */
  lemma MentionsNoCountry(g: string)
    requires g in GeneralTags
    ensures !MatchesCountry(g, CountryKeywords)
  {
    if g == "Fiction" {
      FictionMentionsNoCountry();
    } else if g == "Literary fiction" {
      LiteraryFictionMentionsNoCountry();
    } else if g == "Accessible book" {
      AccessibleBookMentionsNoCountry();
    } else if g == "Protected DAISY" {
      ProtectedDaisyMentionsNoCountry();
    } else if g == "In library" {
      InLibraryMentionsNoCountry();
    }
  }

  /** The keyword tests below are evaluated on the literal strings; where
      the search is long, the asserts on later start positions keep each
      evaluation short. */
  lemma FictionMentionsNoCountry()
    ensures forall c :: c in CountryKeywords ==> !ContainsIgnoreCase("Fiction", c)
  {
  }

  lemma LiteraryFictionMentionsNoCountry()
    ensures forall c :: c in CountryKeywords ==> !ContainsIgnoreCase("Literary fiction", c)
  {
    assert !ContainsFrom("Literary fiction", "Japan", 10);
    assert !ContainsFrom("Literary fiction", "Japan", 8);
    assert !ContainsFrom("Literary fiction", "Japan", 6);
    assert !ContainsFrom("Literary fiction", "Japan", 4);
    assert !ContainsFrom("Literary fiction", "Japan", 2);
    assert !ContainsIgnoreCase("Literary fiction", "Japan");
    assert !ContainsFrom("Literary fiction", "Canada", 9);
    assert !ContainsFrom("Literary fiction", "Canada", 7);
    assert !ContainsFrom("Literary fiction", "Canada", 5);
    assert !ContainsFrom("Literary fiction", "Canada", 3);
    assert !ContainsFrom("Literary fiction", "Canada", 1);
    assert !ContainsIgnoreCase("Literary fiction", "Canada");
    assert !ContainsFrom("Literary fiction", "United States", 2);
    assert !ContainsIgnoreCase("Literary fiction", "United States");
    assert !ContainsFrom("Literary fiction", "England", 8);
    assert !ContainsFrom("Literary fiction", "England", 6);
    assert !ContainsFrom("Literary fiction", "England", 4);
    assert !ContainsFrom("Literary fiction", "England", 2);
    assert !ContainsIgnoreCase("Literary fiction", "England");
    assert !ContainsFrom("Literary fiction", "France", 9);
    assert !ContainsFrom("Literary fiction", "France", 7);
    assert !ContainsFrom("Literary fiction", "France", 5);
    assert !ContainsFrom("Literary fiction", "France", 3);
    assert !ContainsFrom("Literary fiction", "France", 1);
    assert !ContainsIgnoreCase("Literary fiction", "France");
    assert !ContainsFrom("Literary fiction", "Germany", 8);
    assert !ContainsFrom("Literary fiction", "Germany", 6);
    assert !ContainsFrom("Literary fiction", "Germany", 4);
    assert !ContainsFrom("Literary fiction", "Germany", 2);
    assert !ContainsIgnoreCase("Literary fiction", "Germany");
    assert !ContainsFrom("Literary fiction", "China", 10);
    assert !ContainsFrom("Literary fiction", "China", 8);
    assert !ContainsFrom("Literary fiction", "China", 6);
    assert !ContainsFrom("Literary fiction", "China", 4);
    assert !ContainsFrom("Literary fiction", "China", 2);
    assert !ContainsIgnoreCase("Literary fiction", "China");
    assert !ContainsFrom("Literary fiction", "India", 10);
    assert !ContainsFrom("Literary fiction", "India", 8);
    assert !ContainsFrom("Literary fiction", "India", 6);
    assert !ContainsFrom("Literary fiction", "India", 4);
    assert !ContainsFrom("Literary fiction", "India", 2);
    assert !ContainsIgnoreCase("Literary fiction", "India");
  }

  lemma AccessibleBookMentionsNoCountry()
    ensures forall c :: c in CountryKeywords ==> !ContainsIgnoreCase("Accessible book", c)
  {
    assert !ContainsFrom("Accessible book", "Japan", 9);
    assert !ContainsFrom("Accessible book", "Japan", 7);
    assert !ContainsFrom("Accessible book", "Japan", 5);
    assert !ContainsFrom("Accessible book", "Japan", 3);
    assert !ContainsFrom("Accessible book", "Japan", 1);
    assert !ContainsIgnoreCase("Accessible book", "Japan");
    assert !ContainsFrom("Accessible book", "Canada", 8);
    assert !ContainsFrom("Accessible book", "Canada", 6);
    assert !ContainsFrom("Accessible book", "Canada", 4);
    assert !ContainsFrom("Accessible book", "Canada", 2);
    assert !ContainsIgnoreCase("Accessible book", "Canada");
    assert !ContainsFrom("Accessible book", "United States", 1);
    assert !ContainsIgnoreCase("Accessible book", "United States");
    assert !ContainsFrom("Accessible book", "England", 7);
    assert !ContainsFrom("Accessible book", "England", 5);
    assert !ContainsFrom("Accessible book", "England", 3);
    assert !ContainsFrom("Accessible book", "England", 1);
    assert !ContainsIgnoreCase("Accessible book", "England");
    assert !ContainsFrom("Accessible book", "France", 8);
    assert !ContainsFrom("Accessible book", "France", 6);
    assert !ContainsFrom("Accessible book", "France", 4);
    assert !ContainsFrom("Accessible book", "France", 2);
    assert !ContainsIgnoreCase("Accessible book", "France");
    assert !ContainsFrom("Accessible book", "Germany", 7);
    assert !ContainsFrom("Accessible book", "Germany", 5);
    assert !ContainsFrom("Accessible book", "Germany", 3);
    assert !ContainsFrom("Accessible book", "Germany", 1);
    assert !ContainsIgnoreCase("Accessible book", "Germany");
    assert !ContainsFrom("Accessible book", "China", 9);
    assert !ContainsFrom("Accessible book", "China", 7);
    assert !ContainsFrom("Accessible book", "China", 5);
    assert !ContainsFrom("Accessible book", "China", 3);
    assert !ContainsFrom("Accessible book", "China", 1);
    assert !ContainsIgnoreCase("Accessible book", "China");
    assert !ContainsFrom("Accessible book", "India", 9);
    assert !ContainsFrom("Accessible book", "India", 7);
    assert !ContainsFrom("Accessible book", "India", 5);
    assert !ContainsFrom("Accessible book", "India", 3);
    assert !ContainsFrom("Accessible book", "India", 1);
    assert !ContainsIgnoreCase("Accessible book", "India");
  }

  lemma ProtectedDaisyMentionsNoCountry()
    ensures forall c :: c in CountryKeywords ==> !ContainsIgnoreCase("Protected DAISY", c)
  {
    assert !ContainsFrom("Protected DAISY", "Japan", 9);
    assert !ContainsFrom("Protected DAISY", "Japan", 7);
    assert !ContainsFrom("Protected DAISY", "Japan", 5);
    assert !ContainsFrom("Protected DAISY", "Japan", 3);
    assert !ContainsFrom("Protected DAISY", "Japan", 1);
    assert !ContainsIgnoreCase("Protected DAISY", "Japan");
    assert !ContainsFrom("Protected DAISY", "Canada", 8);
    assert !ContainsFrom("Protected DAISY", "Canada", 6);
    assert !ContainsFrom("Protected DAISY", "Canada", 4);
    assert !ContainsFrom("Protected DAISY", "Canada", 2);
    assert !ContainsIgnoreCase("Protected DAISY", "Canada");
    assert !ContainsFrom("Protected DAISY", "United States", 1);
    assert !ContainsIgnoreCase("Protected DAISY", "United States");
    assert !ContainsFrom("Protected DAISY", "England", 7);
    assert !ContainsFrom("Protected DAISY", "England", 5);
    assert !ContainsFrom("Protected DAISY", "England", 3);
    assert !ContainsFrom("Protected DAISY", "England", 1);
    assert !ContainsIgnoreCase("Protected DAISY", "England");
    assert !ContainsFrom("Protected DAISY", "France", 8);
    assert !ContainsFrom("Protected DAISY", "France", 6);
    assert !ContainsFrom("Protected DAISY", "France", 4);
    assert !ContainsFrom("Protected DAISY", "France", 2);
    assert !ContainsIgnoreCase("Protected DAISY", "France");
    assert !ContainsFrom("Protected DAISY", "Germany", 7);
    assert !ContainsFrom("Protected DAISY", "Germany", 5);
    assert !ContainsFrom("Protected DAISY", "Germany", 3);
    assert !ContainsFrom("Protected DAISY", "Germany", 1);
    assert !ContainsIgnoreCase("Protected DAISY", "Germany");
    assert !ContainsFrom("Protected DAISY", "China", 9);
    assert !ContainsFrom("Protected DAISY", "China", 7);
    assert !ContainsFrom("Protected DAISY", "China", 5);
    assert !ContainsFrom("Protected DAISY", "China", 3);
    assert !ContainsFrom("Protected DAISY", "China", 1);
    assert !ContainsIgnoreCase("Protected DAISY", "China");
    assert !ContainsFrom("Protected DAISY", "India", 9);
    assert !ContainsFrom("Protected DAISY", "India", 7);
    assert !ContainsFrom("Protected DAISY", "India", 5);
    assert !ContainsFrom("Protected DAISY", "India", 3);
    assert !ContainsFrom("Protected DAISY", "India", 1);
    assert !ContainsIgnoreCase("Protected DAISY", "India");
  }

  lemma InLibraryMentionsNoCountry()
    ensures forall c :: c in CountryKeywords ==> !ContainsIgnoreCase("In library", c)
  {
    assert !ContainsFrom("In library", "Japan", 4);
    assert !ContainsFrom("In library", "Japan", 2);
    assert !ContainsIgnoreCase("In library", "Japan");
    assert !ContainsFrom("In library", "Canada", 3);
    assert !ContainsFrom("In library", "Canada", 1);
    assert !ContainsIgnoreCase("In library", "Canada");
    assert !ContainsIgnoreCase("In library", "United States");
    assert !ContainsFrom("In library", "England", 2);
    assert !ContainsIgnoreCase("In library", "England");
    assert !ContainsFrom("In library", "France", 3);
    assert !ContainsFrom("In library", "France", 1);
    assert !ContainsIgnoreCase("In library", "France");
    assert !ContainsFrom("In library", "Germany", 2);
    assert !ContainsIgnoreCase("In library", "Germany");
    assert !ContainsFrom("In library", "China", 4);
    assert !ContainsFrom("In library", "China", 2);
    assert !ContainsIgnoreCase("In library", "China");
    assert !ContainsFrom("In library", "India", 4);
    assert !ContainsFrom("In library", "India", 2);
    assert !ContainsIgnoreCase("In library", "India");
  }

  /** With the keyword list fixed in `build_similarity_graph`, the
      country-append step adds nothing: the tags are the first six useful
      subjects. */
  lemma {:induction false} FixedKeywordsAppendNothing(raw: seq<string>)
    ensures Candidates(raw, CountryKeywords) == UsefulSubjects(raw, CountryKeywords)
    ensures SelectTags(raw, CountryKeywords) <= UsefulSubjects(raw, CountryKeywords)
  {
    GeneralTagsMentionNoCountry();
    var u, c := UsefulSubjects(raw, CountryKeywords), CountrySubjects(raw, CountryKeywords);
    forall t | t in c
      ensures t in u
    {
      assert t !in GeneralTags;
    }
  }

  /** When every raw subject is useful, the filter keeps them all. */
  lemma {:induction false} UsefulSubjectsOfUseful(raw: seq<string>, keywords: seq<string>)
    requires forall t :: t in raw ==> IsUsefulTag(t, keywords)
    ensures UsefulSubjects(raw, keywords) == raw
    decreases |raw|
  {
    if raw != [] {
      UsefulSubjectsOfUseful(raw[1..], keywords);
      assert raw == [raw[0]] + raw[1..];
    }
  }

  /** The country-append step runs before the slice, so a country subject
      that comes seventh among seven distinct useful subjects is cut off. */
  lemma CountryTagCanBeCutOff(raw: seq<string>)
    requires |raw| == MaxTags + 1
    requires forall t :: t in raw ==> t !in GeneralTags
    requires MatchesCountry(raw[MaxTags], CountryKeywords)
    requires raw[MaxTags] !in raw[..MaxTags]
    ensures raw[MaxTags] !in SelectTags(raw, CountryKeywords)
  {
    UsefulSubjectsOfUseful(raw, CountryKeywords);
    FixedKeywordsAppendNothing(raw);
    assert SelectTags(raw, CountryKeywords) == raw[..MaxTags];
  }

  /** The edition record fetched from `/isbn/<isbn>.json`. */
  datatype Edition = Edition(title: Option<string>, works: seq<WorkRef>)

  /** One entry of the edition's `works` list; `key` may be absent. */
  datatype WorkRef = WorkRef(key: Option<string>)

  /** The work record; an absent `subjects` key is the empty list. */
  datatype Work = Work(subjects: seq<string>)

  function IsbnUrl(isbn: string): string {
    "https://openlibrary.org/isbn/" + isbn + ".json"
  }

  /** An absent key is formatted by the f-string as `None`. */
  function WorkUrl(key: Option<string>): string {
    "https://openlibrary.org" + key.GetOr("None") + ".json"
  }

  function DefaultTitle(isbn: string): string {
    "Unknown Title (" + isbn + ")"
  }

  /** The subjects of the edition's first work, or none when the edition has
      no works or the work fetch fails. A `None` result from a lookup stands
      for a response whose status is not 200. */
  function RawSubjects(edition: Edition, workAt: string -> Option<Work>): (r: seq<string>)
    ensures r != [] ==> edition.works != [] && workAt(WorkUrl(edition.works[0].key)) == Some(Work(r))
    ensures edition.works != [] && workAt(WorkUrl(edition.works[0].key)).Some? ==>
      r == workAt(WorkUrl(edition.works[0].key)).value.subjects
  {
    if edition.works == [] then []
    else match workAt(WorkUrl(edition.works[0].key))
      case None => []
      case Some(work) => work.subjects
  }

  /** `get_book_data_from_isbn`: the title (or `None` when the ISBN lookup
      fails) and the selected tags. */
  function GetBookData(isbn: string, editionAt: string -> Option<Edition>,
                       workAt: string -> Option<Work>, keywords: seq<string>)
    : (r: (Option<string>, seq<string>))
    ensures r.0.None? <==> editionAt(IsbnUrl(isbn)).None?
    ensures r.0.None? ==> r.1 == []
    ensures editionAt(IsbnUrl(isbn)).Some? ==>
      var e := editionAt(IsbnUrl(isbn));
      && r.0 == Some(e.value.title.GetOr(DefaultTitle(isbn)))
      && |r.1| <= MaxTags
      && (forall t :: t in r.1 ==> t in RawSubjects(e.value, workAt))
      && (RawSubjects(e.value, workAt) == [] ==> r.1 == [])
      && r.1 == SelectTags(RawSubjects(e.value, workAt), keywords)
  {
    match editionAt(IsbnUrl(isbn))
    case None => (None, [])
    case Some(edition) =>
      var title := edition.title.GetOr(DefaultTitle(isbn));
      (Some(title), SelectTags(RawSubjects(edition, workAt), keywords))
  }
}

=== FILE: text.dfy ===
/** String helpers that mirror the Python string operations the core uses:
    `str.lower()` and the substring test `needle in haystack`. */
module Text {

  /** One character of `str.lower()`, restricted to ASCII letters. */
  function LowerChar(c: char): char {
    if 'A' <= c <= 'Z' then (c as int + 32) as char else c
  }

  /** `s.lower()`: every ASCII capital is mapped to its small letter. */
  function ToLower(s: string): (r: string)
    ensures |r| == |s|
    ensures forall i :: 0 <= i < |r| ==> !('A' <= r[i] <= 'Z')
    ensures forall i :: 0 <= i < |s| && !('A' <= s[i] <= 'Z') ==> r[i] == s[i]
    ensures forall i :: 0 <= i < |s| && 'A' <= s[i] <= 'Z' ==> r[i] == (s[i] as int + 32) as char
  {
    seq(|s|, i requires 0 <= i < |s| => LowerChar(s[i]))
  }

  /** Python's `needle in haystack` for two strings: `needle` occurs as a
      contiguous block somewhere in `haystack` (the empty string occurs
      everywhere). */
  ghost predicate IsSubstring(needle: string, haystack: string) {
    exists i: nat :: OccursAt(needle, haystack, i)
  }

  /** `needle` occurs in `haystack` starting at offset `i`. */
  predicate OccursAt(needle: string, haystack: string, i: nat) {
    i + |needle| <= |haystack| && haystack[i..i + |needle|] == needle
  }

  /** `p` matches `s` at offset `i` on the positions `k..|p|`, ignoring
      ASCII case. */
  predicate MatchesAt(s: string, p: string, i: nat, k: nat)
    requires i + |p| <= |s| && k <= |p|
    decreases |p| - k
  {
    k == |p| || (LowerChar(s[i + k]) == LowerChar(p[k]) && MatchesAt(s, p, i, k + 1))
  }

  /** `p` occurs in `s`, ignoring ASCII case, at some offset `i` or later. */
  predicate ContainsFrom(s: string, p: string, i: nat)
    decreases |s| - i
  {
    i + |p| <= |s| && (MatchesAt(s, p, i, 0) || ContainsFrom(s, p, i + 1))
  }

  /** `p.lower() in s.lower()`, computed position by position. */
  predicate ContainsIgnoreCase(s: string, p: string) {
    ContainsFrom(s, p, 0)
  }

  lemma {:induction false} MatchesAtSpec(s: string, p: string, i: nat, k: nat)
    requires i + |p| <= |s| && k <= |p|
    ensures MatchesAt(s, p, i, k) <==>
            forall j :: k <= j < |p| ==> LowerChar(s[i + j]) == LowerChar(p[j])
    decreases |p| - k
  {
    if k < |p| {
      MatchesAtSpec(s, p, i, k + 1);
    }
  }

  lemma MatchesAtIsSliceEquality(s: string, p: string, i: nat)
    requires i + |p| <= |s|
    ensures MatchesAt(s, p, i, 0) <==> ToLower(s)[i..i + |p|] == ToLower(p)
  {
    MatchesAtSpec(s, p, i, 0);
    var ls, lp := ToLower(s), ToLower(p);
    if ls[i..i + |p|] == lp {
      forall j | 0 <= j < |p|
        ensures LowerChar(s[i + j]) == LowerChar(p[j])
      {
        assert ls[i..i + |p|][j] == lp[j];
      }
    }
  }

  lemma {:induction false} ContainsFromSpec(s: string, p: string, i: nat)
    ensures ContainsFrom(s, p, i) <==>
            exists j: nat :: i <= j && OccursAt(ToLower(p), ToLower(s), j)
    decreases |s| - i
  {
    if i + |p| <= |s| {
      MatchesAtIsSliceEquality(s, p, i);
      ContainsFromSpec(s, p, i + 1);
      var ls, lp := ToLower(s), ToLower(p);
      if exists j: nat :: i <= j && OccursAt(lp, ls, j) {
        var j: nat :| i <= j && OccursAt(lp, ls, j);
        if j > i {
          assert i + 1 <= j && OccursAt(lp, ls, j);
        }
      }
      if MatchesAt(s, p, i, 0) {
        assert OccursAt(lp, ls, i);
      }
    }
  }

  /** The position-by-position test is exactly Python's
      `p.lower() in s.lower()`. */
  lemma ContainsIgnoreCaseIsLoweredSubstring(s: string, p: string)
    ensures ContainsIgnoreCase(s, p) <==> IsSubstring(ToLower(p), ToLower(s))
  {
    ContainsFromSpec(s, p, 0);
  }
}
